=== FILE: README.md ===
# routine-pool, modelled in Dafny

A model of the Go goroutine pool `routinepool`: a fixed set of workers
consumes zero-argument functions that callers submit, and each function's
outcome is routed back to the caller's own future, tagged with the index the
caller gave it.

The pool's sequential skeleton is a pure state machine:

- `Tasks` (tasks.dfy): `Task`, `Result`, `Future` and `newFuture`. A task's
  function is an opaque `Computation` handle. What the function returned
  (`Outcome`: a value and an optional error) is an input of the worker step.
- `Workers` (workers.dfy): a worker with a single-slot mailbox, its own
  shutdown signal, one run of the worker loop, and its exit condition.
- `Pools` (pools.dfy): the lifecycle flag (`Stopped`/`Running`) behind a
  compare-and-swap, the bounded intake queue (capacity at least 1), the worker
  set, and the dispatcher with its round-robin counter. Operations:
  `NewPool`, `Start`, `Stop`, `AddTask`, and the dispatcher steps `Receive`,
  `HandOff` and `DispatcherExit`, plus `WorkerExit`.
- `Systems` (systems.dfy): the pool together with the callers' futures, the
  `Step` datatype, and `Next`/`Trace`/`Execute` for runs. Each blocking
  channel operation is a step that is enabled only when it would not block.
  Goroutine scheduling and `select` are the free choice of which enabled step
  fires next. `accepted` is model bookkeeping: the log of the tasks AddTask
  accepted.
- `Ledger` and `Delivery` (ledger.dfy, delivery.dfy): multisets of task
  indices per future, and the invariant that, for each future, the indices
  it has buffered plus the indices still owed to it are exactly the indices
  submitted to it. This gives index preservation, the fact that a future
  only ever holds indices submitted to it, and the batch collection of the
  test.
- `Provenance` (provenance.dfy): the same bookkeeping over whole tasks,
  which also tells apart tasks that share an index (every batch of the test
  numbers its tasks from 0). `completed` is a model-only log of the worker
  runs. Every accepted task is pending or run, and no task runs more often
  than it was accepted. Each future holds, in run order, exactly the results
  of the runs whose task named that future as its sink.
- `Routing` (routing.dfy): from the first Start, as long as the pool is not
  restarted, the k-th hand-off goes to worker k mod numWorkers. Tasks leave
  the queue in the order they were accepted.
- `Lifecycle` (lifecycle.dfy): misuse errors, flag transitions, and what the
  channels closed by Stop mean for every later step.

In the code, Stop closes the intake channel and the shutdown channels, and
nothing reopens them. A Start after a Stop therefore succeeds, but the next
AddTask panics on a send to a closed channel and the next Stop panics on
closing a closed channel. `Lifecycle.RestartAfterStop` states this. The model
reports those panics as `Status.Panic`.

## Model

| member | source | states |
|---|---|---|
| Tasks.NewFuture | pool.go:76-79 | a new future is empty and buffers exactly `size` results |
| Pools.NewPool | pool.go:37-59 | capacity is 1 when `taskChSize <= 0` and `taskChSize` otherwise; the pool is Stopped with an open, empty queue; worker i has id i, an empty mailbox and is not started |
| Pools.Start | pool.go:62-73 | succeeds iff the flag was Stopped, then the flag is Running, every worker is launched with its mailbox untouched, and a dispatcher that had not been running is launched afresh with counter 0 and no task held; on a Running pool it returns AlreadyRunning and changes nothing |
| Pools.Stop | pool.go:93-104 | succeeds iff the pool is Running with an open queue, then it is Stopped with the queue and every shutdown signal closed and nothing else changed; on a Stopped pool it returns AlreadyClosed and changes nothing; a second close panics after the flag flipped |
| Pools.AddTask | pool.go:83-90 | on a Stopped pool returns PoolClosed and changes nothing; on a Running pool with an open queue appends exactly one task with the given index, function and sink at the back and changes nothing else |
| Pools.Receive | pool.go:112-116 | the dispatcher takes the head of the intake queue; the rest of the queue keeps its order |
| Pools.HandOff | pool.go:117-119 | the held task lands in the mailbox of worker `counter mod numWorkers`, which lies in `[0, numWorkers)`; the counter rises by one; no other worker changes |
| Pools.DispatcherExit | pool.go:112-122 | the dispatcher returns, holding no task, and nothing else in the pool changes |
| Pools.WorkerExit | worker.go:29-32 | a waiting worker returns on a closed signal; no other worker changes |
| Workers.Run | worker.go:14-28 | one run yields one result with the task's index and exactly the function's value and error; it is appended to the task's own future only, every other future is unchanged, a nil sink gets nothing, and the worker stays running even when the function returned an error |
| Delivery.AddTaskOwes | pool.go:87-88 | an accepted task's index becomes owed to its own future and to no other |
| Delivery.HandOffOwes | pool.go:117-118 | a hand-off moves a task from the dispatcher to a worker without dropping or duplicating what is owed |
| Delivery.RunMoves | worker.go:20-27 | a run moves the task's index from owed to buffered in the task's own future; every other future's indices stay as they were |
| Delivery.NextInv | pool.go:83-124 | every step keeps: for each future, buffered indices plus still-owed indices equal the indices accepted for it |
| Delivery.ExecuteInv | worker.go:14-28 | every state of a run keeps that index invariant, so a future never holds an index more often than it was submitted to that future |
| Delivery.NoCrossTalk | worker.go:22-27 | in every reachable state a future holds only indices of tasks submitted to that future, no more often than submitted |
| Delivery.Collect | pool_test.go:56-62 | reassembly by index files every result under its own index, the keys are exactly the indices present, and for a repeated index the last result buffered wins |
| Delivery.BatchComplete | pool_test.go:44-62 | when indices 0..n-1 were submitted to one future and all of them ran, that future holds exactly n results, each index 0..n-1 exactly once, and reassembly finds all n |
| Provenance.RunTraced | worker.go:20-27 | a run moves its task from pending to the run log and appends the task's result to the task's own future; every other future is unchanged |
| Provenance.NextTraced | pool.go:83-124 | every step keeps: accepted tasks are exactly the pending ones plus the run ones, and each future holds exactly the results of the runs that named it, in run order |
| Provenance.RunAtMostAccepted | worker.go:14-20 | no task is run more often than AddTask accepted it |
| Provenance.ResultOrigin | worker.go:22-27 | the k-th result of future f is the completion of a run of an accepted task whose sink is f |
| Provenance.NoForeignResult | pool.go:87 | in every reachable state, no task has run more often than it was accepted, and every result a future holds comes from an accepted task that was submitted with that future |
| Routing.RoundRobin | pool.go:109-119 | in a run with no Start step, the k-th hand-off of a run goes to worker `(c + k) mod numWorkers`, c being the counter at the start |
| Routing.RoundRobinFromStart | pool.go:109-119 | from a new started pool, the k-th task handed off goes to worker `k mod numWorkers` |
| Routing.DispatchInOrder | pool.go:110-119 | handed-off tasks, then the held one, then the queue, are the tasks held and queued at the start followed by the newly accepted ones, in order |
| Routing.DispatchInOrderFromInit | pool.go:83-119 | from a new pool: handed-off tasks, held task and queue are exactly the accepted tasks in acceptance order |
| Lifecycle.StartTwice | pool.go:62-65 | a second Start without Stop returns AlreadyRunning and changes nothing |
| Lifecycle.StopTwice | pool.go:93-96 | a second Stop returns AlreadyClosed and changes nothing |
| Lifecycle.AddTaskAfterStop | pool.go:84-86 | AddTask after a successful Stop returns PoolClosed and changes nothing |
| Lifecycle.FlagTransitions | pool.go:62-98 | the flag changes only Stopped to Running by Start and Running to Stopped by Stop |
| Lifecycle.ShutdownEnablesExit | pool.go:97-101 | after Stop a waiting dispatcher and every waiting worker may return |
| Lifecycle.RestartAfterStop | pool.go:62-101 | Start after Stop succeeds, but then AddTask panics on the closed queue and Stop panics on the second close |
| Lifecycle.ClosedQueueDrains | pool.go:112-116 | once the queue is closed it stays closed, nothing more is accepted, and the queue only loses its head, once per receive |

## Left out

- Goroutines, `select` and `sync.WaitGroup` (pool.go:66-71, pool.go:102, worker.go:13) are not modelled. Scheduling is the free choice of the next enabled step. Stop's wait for all goroutines to join is not part of the Stop step.
- Blocking on a full queue, a busy worker or a full future is not modelled as waiting. The step is simply not enabled.
- AddTask is one atomic step. The window between the flag load (pool.go:84) and the send (pool.go:88), where a concurrent Stop makes the send panic, is not modelled.
- Running the task's function is not modelled (worker.go:20). Its outcome is an input, and a panic inside it, which would kill the worker, is outside the model.
- The shutdown race is kept but nothing is claimed about it. A task still queued, or held by the dispatcher, when the goroutines exit never gets a result. No no-loss property across Stop is stated, because none holds. A dispatcher left holding a task after every worker has exited can neither hand it off nor return. The source's `p.wg.Wait()` (pool.go:102) then never returns, so the real Stop hangs, while the model's Stop step has already returned Ok.
- `interface{}` values are a type parameter. Error strings are the `PoolError` enum, and a function's own error is an opaque `TaskError`.
- `Future.Close` (pool.go:127-129) and the unused `worker.stop` (worker.go:37-39) are not modelled. They only close channels.
- The caller's reads from a future (pool_test.go:59) are not modelled as a step. Results stay in the future's buffer, and `Delivery.Collect` states the reassembly over the buffer.
- The `!ok` branch of the worker's receive (worker.go:17-18) is not modelled. No code closes a worker's request channel.
- Pools.NewPool: requires `numWorkers > 0`. The source accepts 0 and panics at the first hand-off when pool.go:117 divides by zero. A negative count panics in `make`.
- Tasks.NewFuture: takes a `nat` size. A negative size panics in `make`. Since reads from a future are not a step, a run is enabled only while the future has a free slot, so a future never accepts more than `size` results over its whole life. A caller who drains the future while submitting more than `size` tasks makes progress in Go but gets stuck in the model. A size-0 future, an unbuffered channel whose send completes when the caller is waiting to receive (pool_test.go:59), never receives any result in the model.
- Pools.AddTask: a caller passing a nil `*Future` is not modelled. The source reads `future.Result` at pool.go:87 and panics on a Running pool. In the model a sink of `None` stands for a non-nil future whose channel is nil (worker.go:22), so this panic has no counterpart.
- Pools.HandOff: the counter is an unbounded `nat`. Go's `int` wraps after 2^63 hand-offs on 64-bit platforms and after 2^31 on 32-bit ones. After the wrap `taskIndex` is negative, Go's `%` truncates toward zero, so pool.go:117 yields a negative `workerIndex` and pool.go:118 panics with an index out of range.
- Pools.Start: on a restart, a worker or dispatcher goroutine that has not yet returned is treated as the relaunched one. The source would run a second goroutine on the same channels. A relaunched `dispatch()` starts again from `taskIndex := 0`. It may take buffered tasks from the closed intake channel (pool.go:112 yields `ok == true` until the channel is drained, while pool.go:120-121 lets it return at any iteration) and hand them off from counter 0 alongside the old dispatcher. The routing of that second dispatcher is not modelled.

=== FILE: delivery.dfy ===
/** Where results go, counted by index. For every future, the indices it
    has buffered plus the indices still owed to it (queued, held by the
    dispatcher, or in a worker's mailbox) are exactly the indices submitted
    to it. From this follow index preservation, that a future only holds
    indices submitted to it, and the batch collection of pool_test.go.
    Provenance tracks whole tasks, which also tells apart equal indices.
    Both ledgers are kept on purpose. The index ledger speaks the caller's
    language: the test reassembles a batch by index, and BatchComplete
    needs counts of indices per future. The task ledger is what rules out
    results landing in the wrong future. Deriving one from the other would
    need a mapping lemma over multisets and would add no property. */
module Delivery {
  import opened Tasks
  import opened Workers
  import opened Pools
  import opened Systems
  import opened Ledger

  /** The indices future `f` has buffered; a future not yet created has none. */
  function FutureIndices<V>(futures: seq<Future<V>>, f: FutureId): multiset<int> {
    if f < |futures| then ResultIndices(futures[f].results) else multiset{}
  }

  /** The indices of tasks for `f` that the pool has accepted and not yet run. */
  function Outstanding(p: Pool, f: FutureId): multiset<int> {
    TaskIndices(p.queue, f) + SlotIndices(p.dispatcher.held, f) + MailboxIndices(p.workers, f)
  }

  /** For every future, answered plus outstanding is exactly what was accepted. */
  ghost predicate Conserved<V>(s: System<V>) {
    forall f: FutureId :: FutureIndices(s.futures, f) + Outstanding(s.pool, f) == TaskIndices(s.accepted, f)
  }

  ghost predicate Inv<V>(s: System<V>) {
    && Valid(s.pool)
    && (forall f :: 0 <= f < |s.futures| ==> s.futures[f].Valid())
    && Conserved(s)
  }

  lemma {:induction false} MailboxIndicesIdle(ws: seq<Worker>, f: FutureId)
    requires forall i :: 0 <= i < |ws| ==> ws[i].mailbox == None
    ensures MailboxIndices(ws, f) == multiset{}
    decreases |ws|
  {
    if |ws| > 0 {
      MailboxIndicesIdle(ws[..|ws| - 1], f);
    }
  }

  /** A freshly constructed pool owes nothing and no future holds anything. */
  lemma InitInv<V>(numWorkers: nat, taskChSize: int)
    requires numWorkers > 0
    ensures Inv(Init<V>(numWorkers, taskChSize))
  {
    var s := Init<V>(numWorkers, taskChSize);
    forall f: FutureId
      ensures FutureIndices(s.futures, f) + Outstanding(s.pool, f) == TaskIndices(s.accepted, f)
    {
      MailboxIndicesIdle(s.pool.workers, f);
    }
  }

  /** A step that touches neither the futures, the log, nor what is owed. */
  lemma OwedUnchanged<V>(s: System<V>, s': System<V>)
    requires Inv(s) && Valid(s'.pool)
    requires s'.futures == s.futures && s'.accepted == s.accepted
    requires s'.pool.queue == s.pool.queue && s'.pool.dispatcher.held == s.pool.dispatcher.held
    requires |s'.pool.workers| == |s.pool.workers|
    requires forall i :: 0 <= i < |s.pool.workers| ==> s'.pool.workers[i].mailbox == s.pool.workers[i].mailbox
    ensures Inv(s')
  {
    forall f: FutureId
      ensures FutureIndices(s'.futures, f) + Outstanding(s'.pool, f) == TaskIndices(s'.accepted, f)
    {
      MailboxIndicesSame(s.pool.workers, s'.pool.workers, f);
    }
  }

  lemma StartInv<V>(s: System<V>)
    requires Inv(s)
    ensures Inv(Next(s, StartStep))
  {
    OwedUnchanged(s, Next(s, StartStep));
  }

  lemma StopInv<V>(s: System<V>)
    requires Inv(s)
    ensures Inv(Next(s, StopStep))
  {
    OwedUnchanged(s, Next(s, StopStep));
  }

  lemma NewFutureInv<V>(s: System<V>, size: nat)
    requires Inv(s)
    ensures Inv(Next(s, NewFutureStep(size)))
  {
    var s' := Next(s, NewFutureStep(size));
    forall f: FutureId
      ensures FutureIndices(s'.futures, f) == FutureIndices(s.futures, f)
    {
      if f < |s.futures| {
        assert s'.futures[f] == s.futures[f];
      }
    }
  }

  /** An accepted task joins the back of the queue: it becomes owed. */
  lemma AddTaskOwes(p: Pool, sink: Option<FutureId>, index: int, fn: Computation, f: FutureId)
    requires AddTaskMayProceed(p)
    requires AddTask(p, sink, index, fn).status == Ok
    ensures Outstanding(AddTask(p, sink, index, fn).pool, f)
            == Outstanding(p, f) + SlotIndices(Some(Task(index, fn, sink)), f)
  {
    TaskIndicesAppend(p.queue, Task(index, fn, sink), f);
  }

  lemma SubmitInv<V>(s: System<V>, sink: Option<FutureId>, index: int, fn: Computation)
    requires Inv(s) && Enabled(s, AddTaskStep(sink, index, fn))
    ensures Inv(Next(s, AddTaskStep(sink, index, fn)))
  {
    var s' := Next(s, AddTaskStep(sink, index, fn));
    if AddTask(s.pool, sink, index, fn).status == Ok {
      assert s'.accepted == s.accepted + [Task(index, fn, sink)];
      assert Valid(s'.pool);
      forall f: FutureId
        ensures FutureIndices(s'.futures, f) + Outstanding(s'.pool, f) == TaskIndices(s'.accepted, f)
      {
        AddTaskOwes(s.pool, sink, index, fn, f);
        TaskIndicesAppend(s.accepted, Task(index, fn, sink), f);
      }
    }
  }

  lemma ReceiveInv<V>(s: System<V>)
    requires Inv(s) && Enabled(s, ReceiveStep)
    ensures Inv(Next(s, ReceiveStep))
  {
    var s' := Next(s, ReceiveStep);
    forall f: FutureId
      ensures FutureIndices(s'.futures, f) + Outstanding(s'.pool, f) == TaskIndices(s'.accepted, f)
    {
      TaskIndicesHead(s.pool.queue, f);
    }
  }

  /** A hand-off moves a task from the dispatcher to a worker: it stays owed. */
  lemma HandOffOwes(p: Pool, f: FutureId)
    requires CanHandOff(p)
    ensures Outstanding(HandOff(p), f) == Outstanding(p, f)
  {
    var p' := HandOff(p);
    var w := Target(p);
    assert p'.workers == p.workers[w := p'.workers[w]];
    MailboxIndicesUpdate(p.workers, w, p'.workers[w], f);
    assert MailboxIndices(p'.workers, f) == MailboxIndices(p.workers, f) + SlotIndices(p.dispatcher.held, f);
  }

  lemma HandOffInv<V>(s: System<V>)
    requires Inv(s) && Enabled(s, HandOffStep)
    ensures Inv(Next(s, HandOffStep))
  {
    var s' := Next(s, HandOffStep);
    assert s'.pool.workers == s.pool.workers[Target(s.pool) := s'.pool.workers[Target(s.pool)]];
    forall f: FutureId
      ensures FutureIndices(s'.futures, f) + Outstanding(s'.pool, f) == TaskIndices(s'.accepted, f)
    {
      HandOffOwes(s.pool, f);
    }
  }

  lemma DispatcherExitInv<V>(s: System<V>)
    requires Inv(s) && Enabled(s, DispatcherExitStep)
    ensures Inv(Next(s, DispatcherExitStep))
  {
    OwedUnchanged(s, Next(s, DispatcherExitStep));
  }

  /** A run moves the index of the worker's task from owed to answered, in
      that task's own future only. */
  lemma RunMoves<V>(s: System<V>, w: nat, o: Outcome<V>, f: FutureId)
    requires CanRun(s, w)
    ensures var t := s.pool.workers[w].mailbox.value;
            var s' := RunWorker(s, w, o);
            && Outstanding(s'.pool, f) + SlotIndices(Some(t), f) == Outstanding(s.pool, f)
            && FutureIndices(s'.futures, f) == FutureIndices(s.futures, f) + SlotIndices(Some(t), f)
  {
    var s' := RunWorker(s, w, o);
    var t := s.pool.workers[w].mailbox.value;
    assert s'.pool.workers == s.pool.workers[w := s'.pool.workers[w]];
    MailboxIndicesUpdate(s.pool.workers, w, s'.pool.workers[w], f);
    assert s'.pool.queue == s.pool.queue && s'.pool.dispatcher == s.pool.dispatcher;
    assert MailboxIndices(s'.pool.workers, f) + SlotIndices(Some(t), f) == MailboxIndices(s.pool.workers, f);
    if t.sink == Some(f) {
      var rs := s.futures[f].results;
      assert s'.futures[f].results == rs + [Complete(t, o)];
      assert (rs + [Complete(t, o)])[..|rs|] == rs;
      assert ResultIndices(rs + [Complete(t, o)]) == ResultIndices(rs) + multiset{t.index};
      assert SlotIndices(Some(t), f) == multiset{t.index};
    } else {
      assert FutureIndices(s'.futures, f) == FutureIndices(s.futures, f);
    }
  }

  lemma RunInv<V>(s: System<V>, w: nat, o: Outcome<V>)
    requires Inv(s) && Enabled(s, RunStep(w, o))
    ensures Inv(Next(s, RunStep(w, o)))
  {
    var s' := Next(s, RunStep(w, o));
    assert s'.pool.workers == s.pool.workers[w := s'.pool.workers[w]];
    forall f: FutureId
      ensures FutureIndices(s'.futures, f) + Outstanding(s'.pool, f) == TaskIndices(s'.accepted, f)
    {
      RunMoves(s, w, o, f);
    }
  }

  lemma WorkerExitInv<V>(s: System<V>, w: nat)
    requires Inv(s) && Enabled(s, WorkerExitStep(w))
    ensures Inv(Next(s, WorkerExitStep(w)))
  {
    OwedUnchanged(s, Next(s, WorkerExitStep(w)));
  }

  /** Every step keeps the invariant. */
  lemma NextInv<V>(s: System<V>, step: Step<V>)
    requires Inv(s) && Enabled(s, step)
    ensures Inv(Next(s, step))
  {
    match step
    case StartStep => StartInv(s);
    case StopStep => StopInv(s);
    case NewFutureStep(size) => NewFutureInv(s, size);
    case AddTaskStep(sink, index, fn) => SubmitInv(s, sink, index, fn);
    case ReceiveStep => ReceiveInv(s);
    case HandOffStep => HandOffInv(s);
    case DispatcherExitStep => DispatcherExitInv(s);
    case RunStep(w, o) => RunInv(s, w, o);
    case WorkerExitStep(w) => WorkerExitInv(s, w);
  }

  /** Every state a run reaches keeps the invariant. */
  lemma {:induction false} ExecuteInv<V>(s: System<V>, steps: seq<Step<V>>)
    requires Inv(s) && Trace(s, steps)
    ensures Inv(Execute(s, steps))
    decreases |steps|
  {
    if |steps| > 0 {
      NextInv(s, steps[0]);
      ExecuteInv(Next(s, steps[0]), steps[1..]);
    }
  }

  /** No cross-talk: in any reachable state, the results a future holds carry
      indices of tasks that were submitted to that very future, each at most as
      often as it was submitted there. */
  lemma NoCrossTalk<V>(numWorkers: nat, taskChSize: int, steps: seq<Step<V>>, f: FutureId)
    requires numWorkers > 0
    requires Trace(Init<V>(numWorkers, taskChSize), steps)
    requires f < |Execute(Init<V>(numWorkers, taskChSize), steps).futures|
    ensures var s := Execute(Init<V>(numWorkers, taskChSize), steps);
            ResultIndices(s.futures[f].results) <= TaskIndices(s.accepted, f)
  {
    InitInv<V>(numWorkers, taskChSize);
    ExecuteInv(Init<V>(numWorkers, taskChSize), steps);
    var s := Execute(Init<V>(numWorkers, taskChSize), steps);
    assert FutureIndices(s.futures, f) + Outstanding(s.pool, f) == TaskIndices(s.accepted, f);
  }

  /** The reassembly of pool_test.go: each result is filed under its own
      index; a later result with the same index replaces an earlier one. */
  function Collect<V>(rs: seq<Result<V>>): (m: map<int, Result<V>>)
    ensures m.Keys == set k | 0 <= k < |rs| :: rs[k].index
    ensures forall i :: i in m ==> m[i].index == i
    ensures forall i :: i in m ==> m[i] in rs
    ensures forall i :: i in m ==> LastWith(rs, i, m[i])
    decreases |rs|
  {
    if |rs| == 0 then map[]
    else
      var rest := rs[..|rs| - 1];
      var m := Collect(rest);
      assert forall r :: r in rest ==> r in rs;
      assert forall k :: 0 <= k < |rest| ==> rest[k] == rs[k];
      assert rest + [rs[|rs| - 1]] == rs;
      CollectStep(rest, rs[|rs| - 1], m);
      m[rs[|rs| - 1].index := rs[|rs| - 1]]
  }

  /** `r` is the last result in `rs` that carries index `i`. */
  ghost predicate LastWith<V>(rs: seq<Result<V>>, i: int, r: Result<V>) {
    exists k :: 0 <= k < |rs| && rs[k] == r && forall k' :: k < k' < |rs| ==> rs[k'].index != i
  }

  /** Filing one more result keeps every entry the last with its index. */
  lemma CollectStep<V>(rest: seq<Result<V>>, last: Result<V>, m: map<int, Result<V>>)
    requires forall i :: i in m ==> LastWith(rest, i, m[i])
    ensures var m' := m[last.index := last];
            forall i :: i in m' ==> LastWith(rest + [last], i, m'[i])
  {
    var rs := rest + [last];
    var m' := m[last.index := last];
    forall i | i in m'
      ensures LastWith(rs, i, m'[i])
    {
      if i == last.index {
        assert rs[|rest|] == last;
      } else {
        var k :| 0 <= k < |rest| && rest[k] == m[i] && forall k' :: k < k' < |rest| ==> rest[k'].index != i;
        assert rs[k] == m'[i];
        assert forall k' :: k < k' < |rs| ==> rs[k'].index != i;
      }
    }
  }

  /** The batch of pool_test.go: a caller submitted indices 0..n-1 to future
      `f`, and every one of those tasks has been dispatched and run. Then `f`
      holds exactly n results, each of 0..n-1 appears exactly once, and the
      caller's reassembly by index finds all n. */
  lemma BatchComplete<V>(numWorkers: nat, taskChSize: int, steps: seq<Step<V>>, f: FutureId, n: nat)
    requires numWorkers > 0
    requires Trace(Init<V>(numWorkers, taskChSize), steps)
    requires var s := Execute(Init<V>(numWorkers, taskChSize), steps);
             && f < |s.futures|
             && TaskIndices(s.accepted, f) == multiset(Iota(n))
             && Outstanding(s.pool, f) == multiset{}
    ensures var rs := Execute(Init<V>(numWorkers, taskChSize), steps).futures[f].results;
            && |rs| == n
            && (forall k :: 0 <= k < |rs| ==> 0 <= rs[k].index < n)
            && (forall i :: 0 <= i < n ==> ResultIndices(rs)[i] == 1)
            && (forall i :: i in Collect(rs) <==> 0 <= i < n)
  {
    InitInv<V>(numWorkers, taskChSize);
    ExecuteInv(Init<V>(numWorkers, taskChSize), steps);
    var s := Execute(Init<V>(numWorkers, taskChSize), steps);
    var rs := s.futures[f].results;
    assert FutureIndices(s.futures, f) + Outstanding(s.pool, f) == TaskIndices(s.accepted, f);
    assert ResultIndices(rs) == multiset(Iota(n));
    ResultIndicesSize(rs);
    IotaOnce(n);
    forall k | 0 <= k < |rs|
      ensures 0 <= rs[k].index < n
    {
      ResultIndicesMember(rs, rs[k].index);
    }
    forall i | 0 <= i < n
      ensures i in Collect(rs).Keys
    {
      ResultIndicesMember(rs, i);
    }
  }
}

=== FILE: ledger.dfy ===
/** Bookkeeping of task indices per future: which indices are owed to a
    future by a sequence of tasks, by the workers' mailboxes, and which a
    future's buffer already holds. These multisets state delivery facts. */
module Ledger {
  import opened Tasks
  import opened Workers

  /** The index of the task in `o`, if that task reports to future `f`. */
  function SlotIndices(o: Option<Task>, f: FutureId): multiset<int> {
    if o.Some? && o.value.sink == Some(f) then multiset{o.value.index} else multiset{}
  }

  /** The indices of the tasks in `ts` that report to future `f`. */
  function TaskIndices(ts: seq<Task>, f: FutureId): multiset<int> {
    if |ts| == 0 then multiset{}
    else TaskIndices(ts[..|ts| - 1], f) + SlotIndices(Some(ts[|ts| - 1]), f)
  }

  /** The indices of the tasks that workers hold and that report to `f`. */
  function MailboxIndices(ws: seq<Worker>, f: FutureId): multiset<int> {
    if |ws| == 0 then multiset{}
    else MailboxIndices(ws[..|ws| - 1], f) + SlotIndices(ws[|ws| - 1].mailbox, f)
  }

  /** The indices carried by a sequence of results. */
  function ResultIndices<V>(rs: seq<Result<V>>): multiset<int> {
    if |rs| == 0 then multiset{}
    else ResultIndices(rs[..|rs| - 1]) + multiset{rs[|rs| - 1].index}
  }

  lemma {:induction false} TaskIndicesConcat(a: seq<Task>, b: seq<Task>, f: FutureId)
    ensures TaskIndices(a + b, f) == TaskIndices(a, f) + TaskIndices(b, f)
    decreases |b|
  {
    if |b| == 0 {
      assert a + b == a;
    } else {
      var b' := b[..|b| - 1];
      assert (a + b)[..|a + b| - 1] == a + b';
      TaskIndicesConcat(a, b', f);
    }
  }

  /** Taking the head off a queue removes exactly the head's index. */
  lemma TaskIndicesHead(ts: seq<Task>, f: FutureId)
    requires |ts| > 0
    ensures TaskIndices(ts, f) == SlotIndices(Some(ts[0]), f) + TaskIndices(ts[1..], f)
  {
    assert ts == [ts[0]] + ts[1..];
    TaskIndicesConcat([ts[0]], ts[1..], f);
    assert [ts[0]][..0] == [];
  }

  /** Appending a task adds exactly its index. */
  lemma TaskIndicesAppend(ts: seq<Task>, t: Task, f: FutureId)
    ensures TaskIndices(ts + [t], f) == TaskIndices(ts, f) + SlotIndices(Some(t), f)
  {
    assert (ts + [t])[..|ts|] == ts;
  }

  lemma {:induction false} MailboxIndicesConcat(a: seq<Worker>, b: seq<Worker>, f: FutureId)
    ensures MailboxIndices(a + b, f) == MailboxIndices(a, f) + MailboxIndices(b, f)
    decreases |b|
  {
    if |b| == 0 {
      assert a + b == a;
    } else {
      var b' := b[..|b| - 1];
      assert (a + b)[..|a + b| - 1] == a + b';
      MailboxIndicesConcat(a, b', f);
    }
  }

  /** Replacing one worker changes the mailbox indices by that worker's slot only. */
  lemma MailboxIndicesUpdate(ws: seq<Worker>, i: nat, w: Worker, f: FutureId)
    requires i < |ws|
    ensures MailboxIndices(ws[i := w], f) + SlotIndices(ws[i].mailbox, f)
            == MailboxIndices(ws, f) + SlotIndices(w.mailbox, f)
  {
    var pre, post := ws[..i], ws[i + 1..];
    assert ws == pre + [ws[i]] + post;
    assert ws[i := w] == pre + [w] + post;
    MailboxIndicesConcat(pre + [ws[i]], post, f);
    MailboxIndicesConcat(pre, [ws[i]], f);
    MailboxIndicesConcat(pre + [w], post, f);
    MailboxIndicesConcat(pre, [w], f);
    assert [w][..0] == [] && [ws[i]][..0] == [];
  }

  /** Workers whose mailboxes agree owe the same indices. */
  lemma {:induction false} MailboxIndicesSame(ws: seq<Worker>, ws': seq<Worker>, f: FutureId)
    requires |ws| == |ws'|
    requires forall i :: 0 <= i < |ws| ==> ws[i].mailbox == ws'[i].mailbox
    ensures MailboxIndices(ws, f) == MailboxIndices(ws', f)
    decreases |ws|
  {
    if |ws| > 0 {
      MailboxIndicesSame(ws[..|ws| - 1], ws'[..|ws| - 1], f);
    }
  }

  /** A sequence of results carries exactly as many indices as it has results. */
  lemma {:induction false} ResultIndicesSize<V>(rs: seq<Result<V>>)
    ensures |ResultIndices(rs)| == |rs|
    decreases |rs|
  {
    if |rs| > 0 {
      ResultIndicesSize(rs[..|rs| - 1]);
    }
  }

  /** An index occurs among the results exactly when some result carries it. */
  lemma {:induction false} ResultIndicesMember<V>(rs: seq<Result<V>>, x: int)
    ensures x in ResultIndices(rs) <==> exists k :: 0 <= k < |rs| && rs[k].index == x
    decreases |rs|
  {
    if |rs| > 0 {
      var n := |rs| - 1;
      var init := rs[..n];
      ResultIndicesMember(init, x);
      assert ResultIndices(rs) == ResultIndices(init) + multiset{rs[n].index};
      assert forall k :: 0 <= k < n ==> init[k] == rs[k];
      if x in ResultIndices(rs) {
        if x != rs[n].index {
          var k :| 0 <= k < n && init[k].index == x;
          assert rs[k].index == x;
        }
      }
      if exists k :: 0 <= k < |rs| && rs[k].index == x {
        var k :| 0 <= k < |rs| && rs[k].index == x;
        if k < n {
          assert init[k].index == x;
        }
      }
    }
  }

  /** Each of 0..n-1 occurs exactly once in the range 0..n-1, and nothing else does. */
  lemma {:induction false} IotaOnce(n: nat)
    ensures forall x :: 0 <= x < n ==> multiset(Iota(n))[x] == 1
    ensures forall x :: x < 0 || n <= x ==> multiset(Iota(n))[x] == 0
  {
    if n > 0 {
      IotaOnce(n - 1);
      assert Iota(n) == Iota(n - 1) + [n - 1];
    }
  }
}

=== FILE: lifecycle.dfy ===
/** The pool's lifecycle (pool.go:61-104): the two compare-and-swap guarded
    flag transitions, the misuse errors, and what closing the channels at
    Stop means for every later step. */
module Lifecycle {
  import opened Tasks
  import opened Workers
  import opened Pools
  import opened Systems

  /** Starting a pool twice without a Stop in between fails the second time. */
  lemma StartTwice(p: Pool)
    requires p.flag == Stopped
    ensures Start(p).status == Ok
    ensures Start(Start(p).pool).status == Error(AlreadyRunning)
    ensures Start(Start(p).pool).pool == Start(p).pool
  {
  }

  /** Stopping a pool twice fails the second time and changes nothing. */
  lemma StopTwice(p: Pool)
    requires Stop(p).status == Ok
    ensures Stop(Stop(p).pool).status == Error(AlreadyClosed)
    ensures Stop(Stop(p).pool).pool == Stop(p).pool
  {
  }

  /** A task submitted after a successful Stop is refused. */
  lemma AddTaskAfterStop(p: Pool, sink: Option<FutureId>, index: int, fn: Computation)
    requires Stop(p).status == Ok
    ensures AddTask(Stop(p).pool, sink, index, fn) == Transition(Stop(p).pool, Error(PoolClosed))
  {
  }

  /** The flag changes only by Start taking it from Stopped to Running or by
      Stop taking it from Running to Stopped; no other step touches it. */
  lemma FlagTransitions<V>(s: System<V>, step: Step<V>)
    requires Enabled(s, step)
    ensures var flag' := Next(s, step).pool.flag;
            flag' != s.pool.flag ==>
              || (step.StartStep? && s.pool.flag == Stopped && flag' == Running)
              || (step.StopStep? && s.pool.flag == Running && flag' == Stopped)
  {
  }

  /** Once Stop has closed the channels, the dispatcher can return as soon as
      it is waiting, and so can every worker that is not in the middle of a
      task. */
  lemma ShutdownEnablesExit(p: Pool)
    requires Valid(p)
    requires Stop(p).status == Ok
    ensures var p' := Stop(p).pool;
            && (p'.dispatcher.phase == Active && p'.dispatcher.held.None? ==> DispatcherMayExit(p'))
            && (forall w :: 0 <= w < |p'.workers| && p'.workers[w].phase == Active && p'.workers[w].mailbox.None?
                  ==> WorkerMayExit(p', w))
  {
  }

  /** Starting a pool again after Stop succeeds, but its channels stay
      closed: the next AddTask panics on the send and the next Stop panics on
      the close, after flipping the flag back to Stopped. */
  lemma RestartAfterStop(p: Pool, sink: Option<FutureId>, index: int, fn: Computation)
    requires Stop(p).status == Ok
    ensures var p2 := Start(Stop(p).pool);
            && p2.status == Ok
            && AddTask(p2.pool, sink, index, fn) == Transition(p2.pool, Panic(SendOnClosedChannel))
            && Stop(p2.pool) == Transition(p2.pool.(flag := Stopped), Panic(CloseOfClosedChannel))
  {
  }

  /** How many times a run takes a task off the intake queue. */
  function Receives<V>(steps: seq<Step<V>>): (n: nat)
    ensures n <= |steps|
  {
    if |steps| == 0 then 0
    else (if steps[0].ReceiveStep? then 1 else 0) + Receives(steps[1..])
  }

  /** After the intake queue has been closed, no run reopens it, AddTask never
      accepts another task, and the queue only loses tasks from its head: the
      dispatcher can take at most as many more tasks as were queued, after
      which it may return. */
  lemma {:induction false} ClosedQueueDrains<V>(s: System<V>, steps: seq<Step<V>>)
    requires Trace(s, steps)
    requires s.pool.queueClosed
    ensures var s' := Execute(s, steps);
            && s'.pool.queueClosed
            && s'.accepted == s.accepted
            && Receives(steps) + |s'.pool.queue| == |s.pool.queue|
            && s'.pool.queue == s.pool.queue[Receives(steps)..]
    decreases |steps|
  {
    if |steps| > 0 {
      var s1 := Next(s, steps[0]);
      ClosedQueueDrains(s1, steps[1..]);
      var k := if steps[0].ReceiveStep? then 1 else 0;
      assert s1.pool.queue == s.pool.queue[k..];
      assert s.pool.queue[k..][Receives(steps[1..])..] == s.pool.queue[k + Receives(steps[1..])..];
    }
  }
}

=== FILE: pools.dfy ===
/** The pool (pool.go): its lifecycle flag, the bounded intake queue, the
    worker set and the dispatcher's round-robin routing. Each blocking channel
    operation of the source is one step here, enabled only when it would not
    block; goroutine scheduling is the free choice of which enabled step fires. */
module Pools {
  import opened Tasks
  import opened Workers

  /** The atomic `closed` flag: Stopped is closed == true. */
  datatype Lifecycle = Stopped | Running

  /** The error values the pool's own operations return. */
  datatype PoolError = AlreadyRunning | PoolClosed | AlreadyClosed

  /** Runtime panics the channel operations of the source can raise. */
  datatype Fault = SendOnClosedChannel | CloseOfClosedChannel

  datatype Status = Ok | Error(error: PoolError) | Panic(fault: Fault)

  /** The dispatcher goroutine: its round-robin counter (taskIndex) and the
      task it has taken off the queue but not yet handed to a worker. */
  datatype Dispatcher = Dispatcher(phase: Phase, counter: nat, held: Option<Task>)

  /** `queueClosed` and `shutdown` say whether the intake channel and the
      pool-wide shutdown channel have been closed. */
  datatype Pool = Pool(
    numWorkers: nat,
    flag: Lifecycle,
    capacity: nat,
    queue: seq<Task>,
    queueClosed: bool,
    shutdown: bool,
    workers: seq<Worker>,
    dispatcher: Dispatcher)

  /** A pool operation's new state and what it returned to the caller. */
  datatype Transition = Transition(pool: Pool, status: Status)

  /** What holds of every pool the operations below can produce. */
  predicate Valid(p: Pool) {
    && p.numWorkers > 0
    && |p.workers| == p.numWorkers
    && p.capacity >= 1
    && |p.queue| <= p.capacity
    && p.queueClosed == p.shutdown
    && (forall i :: 0 <= i < |p.workers| ==> p.workers[i].id == i && p.workers[i].shutdown == p.shutdown)
    && (p.dispatcher.phase != Active ==> p.dispatcher.held.None?)
  }

  datatype Swap = Swap(swapped: bool, flag: Lifecycle)

  /** atomic.Bool.CompareAndSwap on the lifecycle flag. */
  function CompareAndSwap(current: Lifecycle, expected: Lifecycle, desired: Lifecycle): (r: Swap)
    ensures r.swapped <==> current == expected
    ensures r.swapped ==> r.flag == desired
    ensures !r.swapped ==> r.flag == current
  {
    if current == expected then Swap(true, desired) else Swap(false, current)
  }

  /** NewPool: a stopped pool with `numWorkers` idle workers and an intake
      queue whose capacity is `taskChSize`, raised to 1 when not positive. */
  function NewPool(numWorkers: nat, taskChSize: int): (p: Pool)
    requires numWorkers > 0
    ensures Valid(p)
    ensures p.flag == Stopped
    ensures taskChSize <= 0 ==> p.capacity == 1
    ensures taskChSize > 0 ==> p.capacity == taskChSize
    ensures p.numWorkers == numWorkers && |p.workers| == numWorkers
    ensures forall i :: 0 <= i < numWorkers ==>
              p.workers[i].id == i && p.workers[i].mailbox == None && p.workers[i].phase == NotStarted
    ensures p.queue == [] && !p.queueClosed && !p.shutdown
    ensures p.dispatcher.phase == NotStarted && p.dispatcher.held == None
  {
    var size := if taskChSize <= 0 then 1 else taskChSize;
    Pool(numWorkers, Stopped, size, [], false, false,
         seq(numWorkers, i => NewWorker(i)), Dispatcher(NotStarted, 0, None))
  }

  /** Launching a worker goroutine: the worker keeps its mailbox and signal. */
  function Launch(ws: seq<Worker>): (r: seq<Worker>)
    ensures |r| == |ws|
    ensures forall i :: 0 <= i < |ws| ==> r[i] == ws[i].(phase := Active)
  {
    seq(|ws|, i requires 0 <= i < |ws| => ws[i].(phase := Active))
  }

  /** Launching the dispatcher goroutine; its counter starts at 0. A
      dispatcher goroutine that has not returned yet is left as it is. */
  function LaunchDispatcher(d: Dispatcher): (r: Dispatcher)
    ensures r.phase == Active
    ensures d.phase != Active ==> r.counter == 0 && r.held == None
    ensures d.phase == Active ==> r == d
  {
    if d.phase == Active then d else Dispatcher(Active, 0, None)
  }

  /** Start: flips the flag from Stopped to Running and launches every worker
      and the dispatcher; on a running pool it fails and changes nothing. */
  function Start(p: Pool): (r: Transition)
    ensures r.status == Ok <==> p.flag == Stopped
    ensures r.status != Ok ==> r.status == Error(AlreadyRunning) && r.pool == p
    ensures r.status == Ok ==>
              && r.pool.flag == Running
              && r.pool.dispatcher.phase == Active
              && (p.dispatcher.phase != Active ==> r.pool.dispatcher == Dispatcher(Active, 0, None))
              && (p.dispatcher.phase == Active ==> r.pool.dispatcher == p.dispatcher)
              && |r.pool.workers| == |p.workers|
              && (forall i :: 0 <= i < |p.workers| ==> r.pool.workers[i] == p.workers[i].(phase := Active))
              && r.pool.queue == p.queue && r.pool.queueClosed == p.queueClosed
              && r.pool.shutdown == p.shutdown && r.pool.capacity == p.capacity
              && r.pool.numWorkers == p.numWorkers
  {
    var cas := CompareAndSwap(p.flag, Stopped, Running);
    if !cas.swapped then
      Transition(p, Error(AlreadyRunning))
    else
      Transition(p.(flag := cas.flag, workers := Launch(p.workers),
                    dispatcher := LaunchDispatcher(p.dispatcher)), Ok)
  }

  /** Closing every worker's own shutdown signal. */
  function SignalAll(ws: seq<Worker>): (r: seq<Worker>)
    ensures |r| == |ws|
    ensures forall i :: 0 <= i < |ws| ==> r[i] == ws[i].(shutdown := true)
  {
    seq(|ws|, i requires 0 <= i < |ws| => ws[i].(shutdown := true))
  }

  /** Stop: flips the flag from Running to Stopped and closes the intake
      queue, the pool-wide signal and every worker's signal. On a stopped pool
      it fails and changes nothing. Closing an intake queue that an earlier
      Stop already closed panics after the flag has been flipped. */
  function Stop(p: Pool): (r: Transition)
    ensures r.status == Ok <==> p.flag == Running && !p.queueClosed
    ensures p.flag == Stopped ==> r == Transition(p, Error(AlreadyClosed))
    ensures p.flag == Running && p.queueClosed ==>
              r == Transition(p.(flag := Stopped), Panic(CloseOfClosedChannel))
    ensures r.status == Ok ==>
              && r.pool.flag == Stopped
              && r.pool.queueClosed && r.pool.shutdown
              && |r.pool.workers| == |p.workers|
              && (forall i :: 0 <= i < |p.workers| ==> r.pool.workers[i] == p.workers[i].(shutdown := true))
              && r.pool.queue == p.queue && r.pool.dispatcher == p.dispatcher
              && r.pool.capacity == p.capacity && r.pool.numWorkers == p.numWorkers
  {
    var cas := CompareAndSwap(p.flag, Running, Stopped);
    if !cas.swapped then
      Transition(p, Error(AlreadyClosed))
    else if p.queueClosed then
      Transition(p.(flag := cas.flag), Panic(CloseOfClosedChannel))
    else
      Transition(p.(flag := cas.flag, queueClosed := true, shutdown := true,
                    workers := SignalAll(p.workers)), Ok)
  }

  /** The send of AddTask would not block: the flag check fails first, the
      channel is closed, or the queue has a free slot. */
  predicate AddTaskMayProceed(p: Pool) {
    p.flag == Running && !p.queueClosed ==> |p.queue| < p.capacity
  }

  /** AddTask: on a stopped pool it fails and changes nothing; otherwise it
      appends one task carrying `index`, `fn` and the future's sink at the back
      of the intake queue. Sending on an already closed queue panics. */
  function AddTask(p: Pool, sink: Option<FutureId>, index: int, fn: Computation): (r: Transition)
    requires AddTaskMayProceed(p)
    ensures r.status == Ok <==> p.flag == Running && !p.queueClosed
    ensures p.flag == Stopped ==> r == Transition(p, Error(PoolClosed))
    ensures p.flag == Running && p.queueClosed ==> r == Transition(p, Panic(SendOnClosedChannel))
    ensures r.status == Ok ==>
              && r.pool.queue == p.queue + [Task(index, fn, sink)]
              && r.pool == p.(queue := r.pool.queue)
  {
    if p.flag == Stopped then
      Transition(p, Error(PoolClosed))
    else if p.queueClosed then
      Transition(p, Panic(SendOnClosedChannel))
    else
      Transition(p.(queue := p.queue + [Task(index, fn, sink)]), Ok)
  }

  /** The dispatcher's select can take the task branch with ok == true. */
  predicate CanReceive(p: Pool) {
    p.dispatcher.phase == Active && p.dispatcher.held.None? && |p.queue| > 0
  }

  /** The dispatcher takes the task at the head of the intake queue. */
  function Receive(p: Pool): (r: Pool)
    requires CanReceive(p)
    ensures r.dispatcher.held.Some?
    ensures p.queue == [r.dispatcher.held.value] + r.queue
    ensures r.dispatcher.phase == p.dispatcher.phase && r.dispatcher.counter == p.dispatcher.counter
    ensures r == p.(queue := r.queue, dispatcher := r.dispatcher)
  {
    p.(queue := p.queue[1..], dispatcher := p.dispatcher.(held := Some(p.queue[0])))
  }

  /** The worker the next hand-off goes to: taskIndex % numWorkers. */
  function Target(p: Pool): nat
    requires p.numWorkers > 0
  {
    p.dispatcher.counter % p.numWorkers
  }

  /** The hand-off on the unbuffered request channel can complete: the
      target worker is running and waiting at its select. */
  predicate CanHandOff(p: Pool) {
    && p.dispatcher.phase == Active
    && p.dispatcher.held.Some?
    && p.numWorkers > 0
    && |p.workers| == p.numWorkers
    && p.workers[Target(p)].phase == Active
    && p.workers[Target(p)].mailbox.None?
  }

  /** The dispatcher hands the task it holds to worker counter % numWorkers
      and counts the hand-off. No other worker and nothing else changes. */
  function HandOff(p: Pool): (r: Pool)
    requires CanHandOff(p)
    ensures 0 <= Target(p) < p.numWorkers
    ensures |r.workers| == |p.workers|
    ensures r.workers[Target(p)] == p.workers[Target(p)].(mailbox := p.dispatcher.held)
    ensures forall i :: 0 <= i < |p.workers| && i != Target(p) ==> r.workers[i] == p.workers[i]
    ensures r.dispatcher == Dispatcher(Active, p.dispatcher.counter + 1, None)
    ensures r == p.(workers := r.workers, dispatcher := r.dispatcher)
  {
    var w := Target(p);
    p.(workers := p.workers[w := p.workers[w].(mailbox := p.dispatcher.held)],
       dispatcher := p.dispatcher.(counter := p.dispatcher.counter + 1, held := None))
  }

  /** The dispatcher's select can return: the intake queue is closed and
      drained, or the pool-wide shutdown signal is closed. */
  predicate DispatcherMayExit(p: Pool) {
    && p.dispatcher.phase == Active
    && p.dispatcher.held.None?
    && ((p.queueClosed && |p.queue| == 0) || p.shutdown)
  }

  function DispatcherExit(p: Pool): (r: Pool)
    requires DispatcherMayExit(p)
    ensures r.dispatcher.phase == Exited && r.dispatcher.held == None
    ensures r == p.(dispatcher := r.dispatcher)
  {
    p.(dispatcher := p.dispatcher.(phase := Exited))
  }

  predicate WorkerMayExit(p: Pool, w: nat) {
    w < |p.workers| && MayExit(p.workers[w], p.shutdown)
  }

  /** Worker `w` returns from its loop; a task still queued or held by the
      dispatcher stays where it is and will never be run by `w`. */
  function WorkerExit(p: Pool, w: nat): (r: Pool)
    requires WorkerMayExit(p, w)
    ensures |r.workers| == |p.workers|
    ensures r.workers[w].phase == Exited && r.workers[w].mailbox == None
    ensures forall i :: 0 <= i < |p.workers| && i != w ==> r.workers[i] == p.workers[i]
    ensures r == p.(workers := r.workers)
  {
    p.(workers := p.workers[w := Exit(p.workers[w], p.shutdown)])
  }
}

=== FILE: provenance.dfy ===
/** Where each result comes from. The index ledger of Delivery cannot tell
    apart two tasks that share an index, and callers do reuse indices (every
    batch of pool_test.go numbers its tasks from 0). Here tasks are tracked
    as whole values: every accepted task is pending or has been run, never
    both and never twice, and future `f` holds, in run order, exactly the
    results of the runs whose task named `f` as its sink. */
module Provenance {
  import opened Tasks
  import opened Workers
  import opened Pools
  import opened Systems
  import opened Delivery

  /** The tasks of a run log, in the order they were run. */
  function RunTasks<V>(cs: seq<Completion<V>>): (ts: seq<Task>)
    ensures |ts| == |cs|
    ensures forall k :: 0 <= k < |cs| ==> ts[k] == cs[k].task
  {
    seq(|cs|, k requires 0 <= k < |cs| => cs[k].task)
  }

  /** The task in a slot, as a multiset of zero or one tasks. */
  function Slot(o: Option<Task>): multiset<Task> {
    if o.Some? then multiset{o.value} else multiset{}
  }

  /** The tasks the workers have received and are running. */
  function MailboxTasks(ws: seq<Worker>): multiset<Task> {
    if |ws| == 0 then multiset{}
    else MailboxTasks(ws[..|ws| - 1]) + Slot(ws[|ws| - 1].mailbox)
  }

  /** The tasks the pool has accepted and not run yet: queued, held by the
      dispatcher, or in a worker's mailbox. */
  function Pending(p: Pool): multiset<Task> {
    multiset(p.queue) + Slot(p.dispatcher.held) + MailboxTasks(p.workers)
  }

  /** The results the runs of `cs` sent to future `f`, in run order. */
  function Delivered<V>(cs: seq<Completion<V>>, f: FutureId): seq<Result<V>> {
    if |cs| == 0 then []
    else
      var c := cs[|cs| - 1];
      Delivered(cs[..|cs| - 1], f) + (if c.task.sink == Some(f) then [Complete(c.task, c.outcome)] else [])
  }

  /** Every accepted task is pending or run, every future holds exactly the
      results sent to it, and every run task named an existing future. */
  ghost predicate Traced<V>(s: System<V>) {
    && multiset(RunTasks(s.completed)) + Pending(s.pool) == multiset(s.accepted)
    && (forall f :: 0 <= f < |s.futures| ==> s.futures[f].results == Delivered(s.completed, f))
    && (forall k :: 0 <= k < |s.completed| && s.completed[k].task.sink.Some? ==>
          s.completed[k].task.sink.value < |s.futures|)
  }

  lemma {:induction false} MailboxTasksConcat(a: seq<Worker>, b: seq<Worker>)
    ensures MailboxTasks(a + b) == MailboxTasks(a) + MailboxTasks(b)
    decreases |b|
  {
    if |b| == 0 {
      assert a + b == a;
    } else {
      var b' := b[..|b| - 1];
      assert (a + b)[..|a + b| - 1] == a + b';
      MailboxTasksConcat(a, b');
    }
  }

  /** Replacing one worker changes the mailbox tasks by that worker's slot only. */
  lemma MailboxTasksUpdate(ws: seq<Worker>, i: nat, w: Worker)
    requires i < |ws|
    ensures MailboxTasks(ws[i := w]) + Slot(ws[i].mailbox) == MailboxTasks(ws) + Slot(w.mailbox)
  {
    var pre, post := ws[..i], ws[i + 1..];
    assert ws == pre + [ws[i]] + post;
    assert ws[i := w] == pre + [w] + post;
    MailboxTasksConcat(pre + [ws[i]], post);
    MailboxTasksConcat(pre, [ws[i]]);
    MailboxTasksConcat(pre + [w], post);
    MailboxTasksConcat(pre, [w]);
    assert [w][..0] == [] && [ws[i]][..0] == [];
  }

  /** Workers whose mailboxes agree hold the same tasks. */
  lemma {:induction false} MailboxTasksSame(ws: seq<Worker>, ws': seq<Worker>)
    requires |ws| == |ws'|
    requires forall i :: 0 <= i < |ws| ==> ws[i].mailbox == ws'[i].mailbox
    ensures MailboxTasks(ws) == MailboxTasks(ws')
    decreases |ws|
  {
    if |ws| > 0 {
      MailboxTasksSame(ws[..|ws| - 1], ws'[..|ws| - 1]);
    }
  }

  lemma {:induction false} MailboxTasksIdle(ws: seq<Worker>)
    requires forall i :: 0 <= i < |ws| ==> ws[i].mailbox == None
    ensures MailboxTasks(ws) == multiset{}
    decreases |ws|
  {
    if |ws| > 0 {
      MailboxTasksIdle(ws[..|ws| - 1]);
    }
  }

  /** A future no run has named has been sent nothing. */
  lemma {:induction false} DeliveredNone<V>(cs: seq<Completion<V>>, f: FutureId)
    requires forall k :: 0 <= k < |cs| ==> cs[k].task.sink != Some(f)
    ensures Delivered(cs, f) == []
    decreases |cs|
  {
    if |cs| > 0 {
      DeliveredNone(cs[..|cs| - 1], f);
    }
  }

  /** Each result sent to `f` is the completion of a run whose task named `f`. */
  lemma {:induction false} DeliveredFrom<V>(cs: seq<Completion<V>>, f: FutureId, k: nat)
    requires k < |Delivered(cs, f)|
    ensures exists j :: 0 <= j < |cs| && cs[j].task.sink == Some(f)
                        && Delivered(cs, f)[k] == Complete(cs[j].task, cs[j].outcome)
    decreases |cs|
  {
    var n := |cs| - 1;
    var init := cs[..n];
    var d := Delivered(init, f);
    if k < |d| {
      DeliveredFrom(init, f, k);
      var j :| 0 <= j < |init| && init[j].task.sink == Some(f)
               && d[k] == Complete(init[j].task, init[j].outcome);
      assert cs[j] == init[j];
    } else {
      assert cs[n].task.sink == Some(f);
    }
  }

  /** A freshly constructed pool has run nothing and holds nothing. */
  lemma InitTraced<V>(numWorkers: nat, taskChSize: int)
    requires numWorkers > 0
    ensures Traced(Init<V>(numWorkers, taskChSize))
  {
    MailboxTasksIdle(Init<V>(numWorkers, taskChSize).pool.workers);
  }

  /** A step that touches neither the futures, the logs, nor what is pending. */
  lemma PendingUnchanged<V>(s: System<V>, s': System<V>)
    requires Traced(s)
    requires s'.futures == s.futures && s'.accepted == s.accepted && s'.completed == s.completed
    requires s'.pool.queue == s.pool.queue && s'.pool.dispatcher.held == s.pool.dispatcher.held
    requires |s'.pool.workers| == |s.pool.workers|
    requires forall i :: 0 <= i < |s.pool.workers| ==> s'.pool.workers[i].mailbox == s.pool.workers[i].mailbox
    ensures Traced(s')
  {
    MailboxTasksSame(s.pool.workers, s'.pool.workers);
  }

  lemma StartTraced<V>(s: System<V>)
    requires Inv(s) && Traced(s)
    ensures Traced(Next(s, StartStep))
  {
    PendingUnchanged(s, Next(s, StartStep));
  }

  lemma NewFutureTraced<V>(s: System<V>, size: nat)
    requires Traced(s)
    ensures Traced(Next(s, NewFutureStep(size)))
  {
    var s' := Next(s, NewFutureStep(size));
    forall f | 0 <= f < |s'.futures|
      ensures s'.futures[f].results == Delivered(s'.completed, f)
    {
      if f == |s.futures| {
        DeliveredNone(s.completed, f);
      } else {
        assert s'.futures[f] == s.futures[f];
      }
    }
  }

  lemma SubmitTraced<V>(s: System<V>, sink: Option<FutureId>, index: int, fn: Computation)
    requires Traced(s) && Enabled(s, AddTaskStep(sink, index, fn))
    ensures Traced(Next(s, AddTaskStep(sink, index, fn)))
  {
    var s' := Next(s, AddTaskStep(sink, index, fn));
    if AddTask(s.pool, sink, index, fn).status == Ok {
      var t := Task(index, fn, sink);
      assert s'.accepted == s.accepted + [t];
      assert s'.pool.queue == s.pool.queue + [t];
      assert Pending(s'.pool) == Pending(s.pool) + multiset{t};
    }
  }

  lemma ReceiveTraced<V>(s: System<V>)
    requires Traced(s) && Enabled(s, ReceiveStep)
    ensures Traced(Next(s, ReceiveStep))
  {
    var s' := Next(s, ReceiveStep);
    assert s.pool.queue == [s.pool.queue[0]] + s'.pool.queue;
    assert Pending(s'.pool) == Pending(s.pool);
  }

  lemma HandOffTraced<V>(s: System<V>)
    requires Traced(s) && Enabled(s, HandOffStep)
    ensures Traced(Next(s, HandOffStep))
  {
    var p, p' := s.pool, HandOff(s.pool);
    var w := Target(p);
    assert p'.workers == p.workers[w := p'.workers[w]];
    MailboxTasksUpdate(p.workers, w, p'.workers[w]);
    assert MailboxTasks(p'.workers) == MailboxTasks(p.workers) + Slot(p.dispatcher.held);
    assert Pending(p') == Pending(p);
  }

  lemma DispatcherExitTraced<V>(s: System<V>)
    requires Traced(s) && Enabled(s, DispatcherExitStep)
    ensures Traced(Next(s, DispatcherExitStep))
  {
    PendingUnchanged(s, Next(s, DispatcherExitStep));
  }

  /** Appending a run adds its result to its own future's share only. */
  lemma DeliveredAppend<V>(cs: seq<Completion<V>>, c: Completion<V>, f: FutureId)
    ensures Delivered(cs + [c], f)
            == Delivered(cs, f) + (if c.task.sink == Some(f) then [Complete(c.task, c.outcome)] else [])
  {
    assert (cs + [c])[..|cs|] == cs;
  }

  /** A run takes its task out of the pending ones, and only that task. */
  lemma RunPending<V>(s: System<V>, w: nat, o: Outcome<V>)
    requires CanRun(s, w)
    ensures Pending(RunWorker(s, w, o).pool) + multiset{s.pool.workers[w].mailbox.value} == Pending(s.pool)
  {
    var s' := RunWorker(s, w, o);
    var t := s.pool.workers[w].mailbox.value;
    assert s'.pool.workers == s.pool.workers[w := s'.pool.workers[w]];
    MailboxTasksUpdate(s.pool.workers, w, s'.pool.workers[w]);
    assert Slot(s.pool.workers[w].mailbox) == multiset{t} && Slot(s'.pool.workers[w].mailbox) == multiset{};
    assert MailboxTasks(s'.pool.workers) + multiset{t} == MailboxTasks(s.pool.workers);
    assert s'.pool.queue == s.pool.queue && s'.pool.dispatcher == s.pool.dispatcher;
  }

  /** A run sends the task's result to the task's own future and to no other. */
  lemma RunDelivers<V>(s: System<V>, w: nat, o: Outcome<V>, f: FutureId)
    requires CanRun(s, w)
    requires f < |s.futures| && s.futures[f].results == Delivered(s.completed, f)
    ensures RunWorker(s, w, o).futures[f].results == Delivered(RunWorker(s, w, o).completed, f)
  {
    var t := s.pool.workers[w].mailbox.value;
    DeliveredAppend(s.completed, Completion(t, o), f);
  }

  /** A run moves its task from pending to the run log and sends the
      task's result to the task's own future, in no other future. */
  lemma RunTraced<V>(s: System<V>, w: nat, o: Outcome<V>)
    requires Traced(s) && Enabled(s, RunStep(w, o))
    ensures Traced(Next(s, RunStep(w, o)))
  {
    var s' := Next(s, RunStep(w, o));
    var t := s.pool.workers[w].mailbox.value;
    assert s'.completed == s.completed + [Completion(t, o)];
    RunPending(s, w, o);
    assert RunTasks(s'.completed) == RunTasks(s.completed) + [t];
    assert multiset(RunTasks(s'.completed)) + Pending(s'.pool) == multiset(s'.accepted);
    forall f | 0 <= f < |s'.futures|
      ensures s'.futures[f].results == Delivered(s'.completed, f)
    {
      RunDelivers(s, w, o, f);
    }
    forall k | 0 <= k < |s'.completed| && s'.completed[k].task.sink.Some?
      ensures s'.completed[k].task.sink.value < |s'.futures|
    {
      if k < |s.completed| {
        assert s'.completed[k] == s.completed[k];
      }
    }
  }

  lemma WorkerExitTraced<V>(s: System<V>, w: nat)
    requires Traced(s) && Enabled(s, WorkerExitStep(w))
    ensures Traced(Next(s, WorkerExitStep(w)))
  {
    PendingUnchanged(s, Next(s, WorkerExitStep(w)));
  }

  /** Every step keeps the provenance invariant. */
  lemma NextTraced<V>(s: System<V>, step: Step<V>)
    requires Inv(s) && Traced(s) && Enabled(s, step)
    ensures Traced(Next(s, step))
  {
    match step
    case StartStep => StartTraced(s);
    case StopStep => PendingUnchanged(s, Next(s, StopStep));
    case NewFutureStep(size) => NewFutureTraced(s, size);
    case AddTaskStep(sink, index, fn) => SubmitTraced(s, sink, index, fn);
    case ReceiveStep => ReceiveTraced(s);
    case HandOffStep => HandOffTraced(s);
    case DispatcherExitStep => DispatcherExitTraced(s);
    case RunStep(w, o) => RunTraced(s, w, o);
    case WorkerExitStep(w) => WorkerExitTraced(s, w);
  }

  /** Every state a run reaches keeps the provenance invariant. */
  lemma {:induction false} ExecuteTraced<V>(s: System<V>, steps: seq<Step<V>>)
    requires Inv(s) && Traced(s) && Trace(s, steps)
    ensures Traced(Execute(s, steps))
    decreases |steps|
  {
    if |steps| > 0 {
      NextTraced(s, steps[0]);
      NextInv(s, steps[0]);
      ExecuteTraced(Next(s, steps[0]), steps[1..]);
    }
  }

  /** No task is run more often than it was accepted. */
  lemma RunAtMostAccepted<V>(s: System<V>)
    requires Traced(s)
    ensures multiset(RunTasks(s.completed)) <= multiset(s.accepted)
  {
    var ran, pending := multiset(RunTasks(s.completed)), Pending(s.pool);
    assert ran + pending == multiset(s.accepted);
  }

  /** The k-th result of future `f` is the completion of a run of an
      accepted task whose sink is `f`. */
  ghost predicate FromOwnSink<V>(s: System<V>, f: FutureId, k: nat)
    requires f < |s.futures| && k < |s.futures[f].results|
  {
    exists j :: 0 <= j < |s.completed|
                && s.completed[j].task.sink == Some(f)
                && s.completed[j].task in s.accepted
                && s.futures[f].results[k] == Complete(s.completed[j].task, s.completed[j].outcome)
  }

  lemma ResultOrigin<V>(s: System<V>, f: FutureId, k: nat)
    requires Traced(s)
    requires f < |s.futures| && k < |s.futures[f].results|
    ensures FromOwnSink(s, f, k)
  {
    DeliveredFrom(s.completed, f, k);
    var j :| 0 <= j < |s.completed| && s.completed[j].task.sink == Some(f)
             && Delivered(s.completed, f)[k] == Complete(s.completed[j].task, s.completed[j].outcome);
    var t := s.completed[j].task;
    assert RunTasks(s.completed)[j] == t;
    RunAtMostAccepted(s);
    assert t in multiset(RunTasks(s.completed));
    assert t in multiset(s.accepted);
  }

  /** What the provenance invariant gives about any single state. */
  lemma TracedOrigins<V>(s: System<V>)
    requires Traced(s)
    ensures multiset(RunTasks(s.completed)) <= multiset(s.accepted)
    ensures forall f: FutureId, k: nat :: f < |s.futures| && k < |s.futures[f].results| ==> FromOwnSink(s, f, k)
  {
    RunAtMostAccepted(s);
    forall f: FutureId, k: nat | f < |s.futures| && k < |s.futures[f].results|
      ensures FromOwnSink(s, f, k)
    {
      ResultOrigin(s, f, k);
    }
  }

  /** In every reachable state: no task is run more often than it was
      accepted, and every result a future holds is the completion of a run
      of an accepted task that named that very future as its sink. */
  lemma NoForeignResult<V>(numWorkers: nat, taskChSize: int, steps: seq<Step<V>>)
    requires numWorkers > 0
    requires Trace(Init<V>(numWorkers, taskChSize), steps)
    ensures var s := Execute(Init<V>(numWorkers, taskChSize), steps);
            && multiset(RunTasks(s.completed)) <= multiset(s.accepted)
            && forall f: FutureId, k: nat :: f < |s.futures| && k < |s.futures[f].results| ==> FromOwnSink(s, f, k)
  {
    var s0 := Init<V>(numWorkers, taskChSize);
    InitInv<V>(numWorkers, taskChSize);
    InitTraced<V>(numWorkers, taskChSize);
    ExecuteTraced(s0, steps);
    TracedOrigins(Execute(s0, steps));
  }
}

=== FILE: routing.dfy ===
/** The dispatcher's routing (pool.go:107-124): tasks leave the intake queue
    in the order AddTask accepted them, and, from the first Start as long as
    the pool is not restarted, the k-th hand-off goes to worker
    k mod numWorkers. */
module Routing {
  import opened Tasks
  import opened Workers
  import opened Pools
  import opened Systems
  import opened Delivery

  /** One hand-off: the task and the worker that received it. */
  datatype Route = Route(task: Task, worker: nat)

  /** The hand-off a single step performs, if it is one. */
  function Here<V>(s: System<V>, step: Step<V>): (rs: seq<Route>)
    requires Enabled(s, step)
    ensures |rs| <= 1
    ensures step.HandOffStep? ==> rs == [Route(s.pool.dispatcher.held.value, Target(s.pool))]
    ensures !step.HandOffStep? ==> rs == []
  {
    if step.HandOffStep? then [Route(s.pool.dispatcher.held.value, Target(s.pool))] else []
  }

  /** The hand-offs a run performs, in the order they happen. */
  function Routes<V>(s: System<V>, steps: seq<Step<V>>): seq<Route>
    requires Trace(s, steps)
    decreases |steps|
  {
    if |steps| == 0 then [] else Here(s, steps[0]) + Routes(Next(s, steps[0]), steps[1..])
  }

  function RoutedTasks(rs: seq<Route>): (ts: seq<Task>)
    ensures |ts| == |rs|
    ensures forall k :: 0 <= k < |rs| ==> ts[k] == rs[k].task
  {
    seq(|rs|, k requires 0 <= k < |rs| => rs[k].task)
  }

  /** The task the dispatcher holds, as a sequence of zero or one tasks. */
  function Held(p: Pool): (ts: seq<Task>)
    ensures |ts| <= 1
    ensures p.dispatcher.held.Some? <==> |ts| == 1
    ensures p.dispatcher.held.Some? ==> ts[0] == p.dispatcher.held.value
  {
    if p.dispatcher.held.Some? then [p.dispatcher.held.value] else []
  }

  /** One step never touches the dispatcher's counter or the worker count,
      except that a hand-off counts itself; a restart is excluded. */
  lemma CounterStep<V>(s: System<V>, step: Step<V>)
    requires Enabled(s, step) && !step.StartStep?
    ensures Next(s, step).pool.numWorkers == s.pool.numWorkers
    ensures Next(s, step).pool.dispatcher.counter
            == s.pool.dispatcher.counter + (if step.HandOffStep? then 1 else 0)
  {
  }

  /** The k-th route goes to worker (c + k) mod n. */
  predicate RoundRobinFrom(rs: seq<Route>, c: nat, n: nat)
    requires n > 0
  {
    forall k :: 0 <= k < |rs| ==> rs[k].worker == (c + k) % n
  }

  /** Prefixing at most one hand-off to worker c mod n keeps the round-robin shape. */
  lemma ShiftRoundRobin(here: seq<Route>, rest: seq<Route>, c: nat, c': nat, n: nat)
    requires n > 0
    requires (|here| == 0 && c' == c) || (|here| == 1 && here[0].worker == c % n && c' == c + 1)
    requires RoundRobinFrom(rest, c', n)
    ensures RoundRobinFrom(here + rest, c, n)
  {
    forall k | 0 <= k < |here + rest|
      ensures (here + rest)[k].worker == (c + k) % n
    {
      if k >= |here| {
        assert (here + rest)[k] == rest[k - |here|];
        assert c' + (k - |here|) == c + k;
      }
    }
  }

  /** Round robin: as long as the dispatcher is not relaunched, the k-th
      hand-off of a run goes to worker (c + k) mod numWorkers, where c is the
      dispatcher's counter when the run begins. */
  lemma {:induction false} RoundRobin<V>(s: System<V>, steps: seq<Step<V>>)
    requires Trace(s, steps)
    requires s.pool.numWorkers > 0
    requires forall k :: 0 <= k < |steps| ==> !steps[k].StartStep?
    ensures RoundRobinFrom(Routes(s, steps), s.pool.dispatcher.counter, s.pool.numWorkers)
    decreases |steps|
  {
    if |steps| > 0 {
      var s' := Next(s, steps[0]);
      CounterStep(s, steps[0]);
      assert forall k :: 0 <= k < |steps[1..]| ==> steps[1..][k] == steps[k + 1];
      RoundRobin(s', steps[1..]);
      ShiftRoundRobin(Here(s, steps[0]), Routes(s', steps[1..]), s.pool.dispatcher.counter,
                      s'.pool.dispatcher.counter, s.pool.numWorkers);
    }
  }

  /** From a freshly constructed and started pool, the k-th task handed off
      goes to worker k mod numWorkers, which is always a valid worker. */
  lemma RoundRobinFromStart<V>(numWorkers: nat, taskChSize: int, steps: seq<Step<V>>)
    requires numWorkers > 0
    requires Trace(Init<V>(numWorkers, taskChSize), [StartStep] + steps)
    requires forall k :: 0 <= k < |steps| ==> !steps[k].StartStep?
    ensures var rs := Routes(Init<V>(numWorkers, taskChSize), [StartStep] + steps);
            forall k :: 0 <= k < |rs| ==> rs[k].worker == k % numWorkers && rs[k].worker < numWorkers
  {
    var s := Init<V>(numWorkers, taskChSize);
    var s1 := Next(s, StartStep);
    assert ([StartStep] + steps)[1..] == steps;
    assert s1.pool.dispatcher.counter == 0;
    RoundRobin(s1, steps);
    assert Routes(s, [StartStep] + steps) == Routes(s1, steps);
  }

  /** One step: what the dispatcher holds and what is queued, followed by what
      AddTask newly accepted, equals what this step handed off followed by
      what is held and queued afterwards. The log only grows. */
  lemma FifoStep<V>(s: System<V>, step: Step<V>)
    requires Inv(s) && Enabled(s, step)
    ensures var s' := Next(s, step);
            && |s.accepted| <= |s'.accepted|
            && s'.accepted[..|s.accepted|] == s.accepted
            && Held(s.pool) + s.pool.queue + s'.accepted[|s.accepted|..]
               == RoutedTasks(Routes(s, [step])) + (Held(s'.pool) + s'.pool.queue)
  {
    var s' := Next(s, step);
    assert [step][1..] == [];
    match step
    case AddTaskStep(sink, index, fn) =>
      if AddTask(s.pool, sink, index, fn).status == Ok {
        assert s'.accepted[|s.accepted|..] == [Task(index, fn, sink)];
      }
    case ReceiveStep =>
      assert s.pool.queue == [s.pool.queue[0]] + s'.pool.queue;
    case _ =>
  }

  /** Two consecutive stretches of a run compose: sequence bookkeeping only. */
  lemma ComposeFifo(h0: seq<Task>, a0: seq<Task>, a1: seq<Task>, an: seq<Task>,
                    r1: seq<Task>, h1: seq<Task>, r2: seq<Task>, hn: seq<Task>)
    requires |a0| <= |a1| <= |an|
    requires a1[..|a0|] == a0 && an[..|a1|] == a1
    requires h0 + a1[|a0|..] == r1 + h1
    requires h1 + an[|a1|..] == r2 + hn
    ensures an[..|a0|] == a0
    ensures h0 + an[|a0|..] == (r1 + r2) + hn
  {
    assert an[|a0|..] == a1[|a0|..] + an[|a1|..];
    calc {
      h0 + an[|a0|..];
      h0 + (a1[|a0|..] + an[|a1|..]);
      (h0 + a1[|a0|..]) + an[|a1|..];
      (r1 + h1) + an[|a1|..];
      r1 + (h1 + an[|a1|..]);
      r1 + (r2 + hn);
    }
  }

  lemma RoutedTasksConcat(a: seq<Route>, b: seq<Route>)
    ensures RoutedTasks(a + b) == RoutedTasks(a) + RoutedTasks(b)
  {
  }

  /** First in, first out: over any run, the tasks handed off, then the task
      the dispatcher still holds, then the tasks still queued, are exactly the
      tasks held and queued at the start followed by those accepted during the
      run, in acceptance order. */
  lemma {:induction false} DispatchInOrder<V>(s: System<V>, steps: seq<Step<V>>)
    requires Inv(s) && Trace(s, steps)
    ensures var s' := Execute(s, steps);
            && |s.accepted| <= |s'.accepted|
            && s'.accepted[..|s.accepted|] == s.accepted
            && Held(s.pool) + s.pool.queue + s'.accepted[|s.accepted|..]
               == RoutedTasks(Routes(s, steps)) + (Held(s'.pool) + s'.pool.queue)
    decreases |steps|
  {
    if |steps| > 0 {
      var s1 := Next(s, steps[0]);
      var sn := Execute(s, steps);
      FifoStep(s, steps[0]);
      NextInv(s, steps[0]);
      DispatchInOrder(s1, steps[1..]);
      assert [steps[0]][1..] == [];
      assert Routes(s, [steps[0]]) == Here(s, steps[0]);
      RoutedTasksConcat(Here(s, steps[0]), Routes(s1, steps[1..]));
      ComposeFifo(Held(s.pool) + s.pool.queue, s.accepted, s1.accepted, sn.accepted,
                  RoutedTasks(Here(s, steps[0])), Held(s1.pool) + s1.pool.queue,
                  RoutedTasks(Routes(s1, steps[1..])), Held(sn.pool) + sn.pool.queue);
    }
  }

  /** Starting from nothing held, queued or accepted: sequence bookkeeping only. */
  lemma FromEmpty(h0: seq<Task>, n: nat, acc: seq<Task>, rt: seq<Task>, h: seq<Task>, q: seq<Task>)
    requires h0 == [] && n == 0 && n <= |acc|
    requires h0 + acc[n..] == rt + (h + q)
    ensures acc == rt + h + q
  {
    assert acc[n..] == acc;
    assert h0 + acc == acc;
  }

  /** From a freshly constructed pool: the tasks handed off so far, then the
      one held, then the queue, are exactly the accepted tasks in order. */
  lemma DispatchInOrderFromInit<V>(numWorkers: nat, taskChSize: int, steps: seq<Step<V>>)
    requires numWorkers > 0
    requires Trace(Init<V>(numWorkers, taskChSize), steps)
    ensures var s' := Execute(Init<V>(numWorkers, taskChSize), steps);
            s'.accepted == RoutedTasks(Routes(Init<V>(numWorkers, taskChSize), steps)) + Held(s'.pool) + s'.pool.queue
  {
    var s := Init<V>(numWorkers, taskChSize);
    InitInv<V>(numWorkers, taskChSize);
    DispatchInOrder(s, steps);
    var s' := Execute(s, steps);
    assert |s.accepted| == 0;
    FromEmpty(Held(s.pool) + s.pool.queue, |s.accepted|, s'.accepted, RoutedTasks(Routes(s, steps)), Held(s'.pool), s'.pool.queue);
  }
}

=== FILE: systems.dfy ===
/** The pool together with the futures its callers created: the whole state
    the pool's goroutines and its callers act on. A run of the system is a
    sequence of steps, each enabled only when its channel operation would not
    block; which enabled step fires next is left open, as goroutine
    scheduling and `select` leave it open in the source. */
module Systems {
  import opened Tasks
  import opened Workers
  import opened Pools

  /** One run of a worker: the task it ran and what the task's function returned. */
  datatype Completion<V> = Completion(task: Task, outcome: Outcome<V>)

  /** `accepted` records, in order, every task AddTask put into the intake
      queue, and `completed` every run of a worker, in the order they
      happened. Both are bookkeeping of the model, used to say where results
      come from and where they belong. */
  datatype System<V> = System(pool: Pool, futures: seq<Future<V>>, accepted: seq<Task>,
                              completed: seq<Completion<V>>)

  datatype Step<V> =
    | StartStep
    | StopStep
    | NewFutureStep(size: nat)
    | AddTaskStep(sink: Option<FutureId>, index: int, fn: Computation)
    | ReceiveStep
    | HandOffStep
    | DispatcherExitStep
    | RunStep(worker: nat, outcome: Outcome<V>)
    | WorkerExitStep(worker: nat)

  /** A freshly constructed pool; no future exists yet. */
  function Init<V>(numWorkers: nat, taskChSize: int): (s: System<V>)
    requires numWorkers > 0
    ensures Valid(s.pool) && s.pool.flag == Stopped
    ensures s.futures == [] && s.accepted == [] && s.completed == []
  {
    System(NewPool(numWorkers, taskChSize), [], [], [])
  }

  /** newFuture: a caller creates a future of capacity `size`; its id is its
      position. The pool and every existing future are untouched. */
  function NewFutureFor<V>(s: System<V>, size: nat): (r: System<V>)
    ensures |r.futures| == |s.futures| + 1
    ensures r.futures[|s.futures|] == NewFuture(size)
    ensures r.futures[..|s.futures|] == s.futures
    ensures r.pool == s.pool && r.accepted == s.accepted && r.completed == s.completed
  {
    s.(futures := s.futures + [NewFuture(size)])
  }

  /** AddTask for a caller holding future `sink`; an accepted task is logged. */
  function Submit<V>(s: System<V>, sink: Option<FutureId>, index: int, fn: Computation): (r: System<V>)
    requires AddTaskMayProceed(s.pool)
    ensures r.futures == s.futures && r.completed == s.completed
    ensures r.pool == AddTask(s.pool, sink, index, fn).pool
    ensures AddTask(s.pool, sink, index, fn).status == Ok ==> r.accepted == s.accepted + [Task(index, fn, sink)]
    ensures AddTask(s.pool, sink, index, fn).status != Ok ==> r == s
  {
    var t := AddTask(s.pool, sink, index, fn);
    if t.status == Ok then s.(pool := t.pool, accepted := s.accepted + [Task(index, fn, sink)])
    else s.(pool := t.pool)
  }

  predicate CanRun<V>(s: System<V>, w: nat) {
    && w < |s.pool.workers|
    && s.pool.workers[w].phase == Active
    && s.pool.workers[w].mailbox.Some?
    && CanDeliver(s.futures, s.pool.workers[w].mailbox.value)
  }

  /** Worker `w` runs the task it received; `o` is what the task's function returned. */
  function RunWorker<V>(s: System<V>, w: nat, o: Outcome<V>): (r: System<V>)
    requires CanRun(s, w)
    ensures |r.pool.workers| == |s.pool.workers|
    ensures r.pool.workers[w].mailbox == None && r.pool.workers[w].phase == Active
    ensures forall i :: 0 <= i < |s.pool.workers| && i != w ==> r.pool.workers[i] == s.pool.workers[i]
    ensures r.pool == s.pool.(workers := r.pool.workers)
    ensures r.accepted == s.accepted
    ensures r.completed == s.completed + [Completion(s.pool.workers[w].mailbox.value, o)]
    ensures r.futures == Run(s.pool.workers[w], s.futures, o).futures
  {
    var ran := Run(s.pool.workers[w], s.futures, o);
    s.(pool := s.pool.(workers := s.pool.workers[w := ran.worker]), futures := ran.futures,
       completed := s.completed + [Completion(s.pool.workers[w].mailbox.value, o)])
  }

  predicate Enabled<V>(s: System<V>, step: Step<V>) {
    match step
    case StartStep => true
    case StopStep => true
    case NewFutureStep(_) => true
    case AddTaskStep(sink, _, _) =>
      (sink.Some? ==> sink.value < |s.futures|) && AddTaskMayProceed(s.pool)
    case ReceiveStep => CanReceive(s.pool)
    case HandOffStep => CanHandOff(s.pool)
    case DispatcherExitStep => DispatcherMayExit(s.pool)
    case RunStep(w, _) => CanRun(s, w)
    case WorkerExitStep(w) => WorkerMayExit(s.pool, w)
  }

  function Next<V>(s: System<V>, step: Step<V>): System<V>
    requires Enabled(s, step)
  {
    match step
    case StartStep => s.(pool := Start(s.pool).pool)
    case StopStep => s.(pool := Stop(s.pool).pool)
    case NewFutureStep(size) => NewFutureFor(s, size)
    case AddTaskStep(sink, index, fn) => Submit(s, sink, index, fn)
    case ReceiveStep => s.(pool := Receive(s.pool))
    case HandOffStep => s.(pool := HandOff(s.pool))
    case DispatcherExitStep => s.(pool := DispatcherExit(s.pool))
    case RunStep(w, o) => RunWorker(s, w, o)
    case WorkerExitStep(w) => s.(pool := WorkerExit(s.pool, w))
  }

  /** Every step of `steps` is enabled in the state the previous ones lead to. */
  predicate Trace<V>(s: System<V>, steps: seq<Step<V>>)
    decreases |steps|
  {
    |steps| == 0 || (Enabled(s, steps[0]) && Trace(Next(s, steps[0]), steps[1..]))
  }

  function Execute<V>(s: System<V>, steps: seq<Step<V>>): System<V>
    requires Trace(s, steps)
    decreases |steps|
  {
    if |steps| == 0 then s else Execute(Next(s, steps[0]), steps[1..])
  }
}

=== FILE: tasks.dfy ===
/** The data model of the routine pool: tasks, their results, and the
    caller-owned futures that collect those results (pool.go, lines 9-24). */
module Tasks {

  datatype Option<T> = None | Some(value: T)

  /** A future's identity: its position among the futures created so far. */
  type FutureId = nat

  /** An opaque reference to a task's zero-argument function. The pool never
      looks inside it; what the function returns is handed to the worker step. */
  datatype Computation = Computation(id: nat)

  /** An error returned by a task's function. The pool carries it verbatim. */
  datatype TaskError = TaskError(message: string)

  /** What a task's function returned: a value and an error, which may be nil. */
  datatype Outcome<V> = Outcome(value: V, err: Option<TaskError>)

  /** One unit of work: the caller's index, the function, and the future the
      result is owed to. A sink of None stands for a future whose channel is nil. */
  datatype Task = Task(index: int, fn: Computation, sink: Option<FutureId>)

  /** The outcome of exactly one task, tagged with that task's index. */
  datatype Result<V> = Result(index: int, value: V, err: Option<TaskError>)

  /** A bounded buffer of results, kept in completion order. */
  datatype Future<V> = Future(capacity: nat, results: seq<Result<V>>)
  {
    predicate Valid() {
      |results| <= capacity
    }

    /** A send into the future would not block. */
    predicate HasRoom() {
      |results| < capacity
    }
  }

  /** A fresh future able to buffer `size` results (make(chan Result, size)). */
  function NewFuture<V>(size: nat): (f: Future<V>)
    ensures f.Valid()
    ensures f.capacity == size
    ensures |f.results| == 0
  {
    Future(size, [])
  }

  /** Wraps what a task's function returned into that task's result. */
  function Complete<V>(t: Task, o: Outcome<V>): (r: Result<V>)
    ensures r.index == t.index
    ensures r.value == o.value && r.err == o.err
  {
    Result(t.index, o.value, o.err)
  }

  /** The range 0, 1, ..., n-1, the indices a caller gives a batch of n tasks. */
  function Iota(n: nat): (s: seq<int>)
    ensures |s| == n
    ensures forall i :: 0 <= i < n ==> s[i] == i
  {
    seq(n, i => i)
  }
}

=== FILE: workers.dfy ===
/** One worker of the pool (worker.go): a single-slot mailbox, the loop that
    runs whatever task arrives in it, and the conditions under which it exits. */
module Workers {
  import opened Tasks

  /** Where a goroutine is in its life: not yet launched, looping, or returned. */
  datatype Phase = NotStarted | Active | Exited

  /** `mailbox` holds the task this worker has received and is running (None
      while it waits at its select); `shutdown` is its own shutdown signal. */
  datatype Worker = Worker(id: int, mailbox: Option<Task>, phase: Phase, shutdown: bool)

  function NewWorker(id: int): (w: Worker)
    ensures w.id == id
    ensures w.mailbox == None && w.phase == NotStarted && !w.shutdown
  {
    Worker(id, None, NotStarted, false)
  }

  /** Handing the result of `t` to its sink would not block: the sink is nil,
      or it names an existing future with a free slot. */
  predicate CanDeliver<V>(futures: seq<Future<V>>, t: Task) {
    match t.sink
    case None => true
    case Some(f) => f < |futures| && futures[f].HasRoom()
  }

  /** The worker after a run, and every future after the run's one write. */
  datatype Ran<V> = Ran(worker: Worker, futures: seq<Future<V>>)

  /** One iteration of the worker loop on a received task: `o` is what the
      task's function returned. The result goes to the task's own sink, if it
      has one, and to no other future; an error in `o` does not stop the worker. */
  function Run<V>(w: Worker, futures: seq<Future<V>>, o: Outcome<V>): (r: Ran<V>)
    requires w.phase == Active && w.mailbox.Some?
    requires CanDeliver(futures, w.mailbox.value)
    ensures r.worker.phase == Active && r.worker.mailbox == None
    ensures r.worker.id == w.id && r.worker.shutdown == w.shutdown
    ensures |r.futures| == |futures|
    ensures forall f :: 0 <= f < |futures| && w.mailbox.value.sink != Some(f) ==> r.futures[f] == futures[f]
    ensures w.mailbox.value.sink.None? ==> r.futures == futures
    ensures w.mailbox.value.sink.Some? ==>
              var f := w.mailbox.value.sink.value;
              && r.futures[f].capacity == futures[f].capacity
              && r.futures[f].results == futures[f].results + [Result(w.mailbox.value.index, o.value, o.err)]
  {
    var t := w.mailbox.value;
    var result := Complete(t, o);
    var futures' :=
      match t.sink
      case None => futures
      case Some(f) => futures[f := futures[f].(results := futures[f].results + [result])];
    Ran(w.(mailbox := None), futures')
  }

  /** The worker's select can take a shutdown branch: it is waiting (not in
      the middle of a task) and its own or the pool-wide signal is closed. */
  predicate MayExit(w: Worker, poolShutdown: bool) {
    w.phase == Active && w.mailbox.None? && (w.shutdown || poolShutdown)
  }

  function Exit(w: Worker, poolShutdown: bool): (r: Worker)
    requires MayExit(w, poolShutdown)
    ensures r.phase == Exited
    ensures r.id == w.id && r.mailbox == None && r.shutdown == w.shutdown
  {
    w.(phase := Exited)
  }
}
